=== FILE: README.md ===
# NastranIO bulk-data import, modelled in Dafny

This project models the reader that turns a parsed Nastran bulk-data model
(BDF) into a libMesh mesh: `MAST::NastranIO` in `src/mesh/nastran_io.cpp`.
The model covers:

- `read_nodes`, which adds every GRID point under its own id and records the
  node registries;
- `read_elements`, which walks the element groups in type-name order. Each
  record becomes the element with the next handle. The element registries map
  the eid to the handle and back. Every (pid, element type) key gets a subdomain
  id, numbered from 1 in the order the keys are first seen. A type name missing
  from the type table is a fatal error;
- `read_node_boundaries`, which tags the nodes of the i-th SPC set (in name
  order) with boundary id i;
- the two `read` overloads, which chain these steps;
- the getters of the registries, and `getPID2subdomainIDsMap`, which groups
  subdomain ids by pid.

Layout:

- `bdf.dfy` (module `Bdf`): the records the parser hands over, the element
  type values, the import error, and the std::map order of group names.
- `mesh.dfy` (module `MeshSink`): the part of libMesh's `MeshBase` the reader
  writes to. It is a class; each method's `modifies` clause names the fields
  it changes (`Clear` changes four of them, every other method one).
- `node_import.dfy`, `element_import.dfy`, `boundary_import.dfy`: what each
  read step leaves behind, as pure functions over the records, plus the lemmas
  about them. The element step carries the session invariant `Inv`: elements
  match their records, the handle maps agree, and the numbering is dense,
  injective and first-seen. The lemmas prove that every record and every group
  preserves `Inv`.
- `nastran_io.dfy` (module `Nastran`): the class `NastranIO` with the registry
  fields and the imperative read methods. Each method is proved to leave
  exactly the state the corresponding function computes.

Node handles are node ids: a node is added under its external id, so the
node registries map each id to itself. An element handle is the element's
position in the mesh. The handle is `k` while the registries are written, and
the element then gets its eid as id. The pid is converted to libMesh's 16-bit
`subdomain_id_type` before it forms a key, so the key holds `pid mod 2^16`.

## Model

| member | source | states |
|---|---|---|
| MeshSink.Mesh.Clear | src/mesh/nastran_io.cpp:229 | clearing drops every point, element and boundary tag and the prepared flag |
| MeshSink.Mesh.SetDimension | src/mesh/nastran_io.cpp:235 | the mesh dimension becomes the model's |
| MeshSink.Mesh.ReserveNodes | src/mesh/nastran_io.cpp:120 | the node capacity hint becomes nNodes; nothing else changes |
| MeshSink.Mesh.ReserveElems | src/mesh/nastran_io.cpp:140 | the element capacity hint becomes nElems; nothing else changes |
| MeshSink.Mesh.AddPoint | src/mesh/nastran_io.cpp:128 | the point is stored under the given id, replacing any earlier point there |
| MeshSink.Mesh.AddElem | src/mesh/nastran_io.cpp:167 | the element is appended and its handle is the previous element count |
| MeshSink.Mesh.SetElemId | src/mesh/nastran_io.cpp:169-172 | only the id of the element at that handle changes |
| MeshSink.Mesh.SetSubdomain | src/mesh/nastran_io.cpp:188-189 | only the subdomain of the element at that handle changes |
| MeshSink.Mesh.SetNode | src/mesh/nastran_io.cpp:196 | only slot i of that element changes, to the node; the slot must exist |
| MeshSink.Mesh.AddBoundaryNode | src/mesh/nastran_io.cpp:216 | the (node, tag) pair is added to the nodal boundary tags |
| MeshSink.Mesh.PrepareForUse | src/mesh/nastran_io.cpp:247 | the mesh is marked prepared |
| NodeImport.Placed | src/mesh/nastran_io.cpp:125-133 | after adding the node records the mesh has points under exactly the earlier ids and the record ids |
| NodeImport.PlacedLastWins | src/mesh/nastran_io.cpp:128 | a node id keeps the coordinates of the last record that lists it |
| NodeImport.PlacedKeeps | src/mesh/nastran_io.cpp:128 | a point under an id that no record mentions is untouched |
| NodeImport.PlacedDistinct | src/mesh/nastran_io.cpp:125-133 | with distinct ids, every record's point is stored at mesh id nid |
| NodeImport.IdentityExtendInverse | src/mesh/nastran_io.cpp:129-130 | the two node registries stay inverses of each other, and every registered id maps to itself |
| ElementImport.KeyOf | src/mesh/nastran_io.cpp:179-181 | the subdomain key holds the pid as an unsigned 16-bit value (in 0 .. 2^16-1, congruent to the pid modulo 2^16, and equal to it when it is already in range) and the element type's value |
| ElementImport.AddGroups | src/mesh/nastran_io.cpp:150-157 | an import that reports no error has found the type name of every group in the type table |
| ElementImport.FirstUnknown | src/mesh/nastran_io.cpp:150-157 | every group before the index has a known type name, and the group at the index (if any) does not |
| ElementImport.FreshInv | src/mesh/nastran_io.cpp:148-149 | the empty session (no elements, empty maps, z = 1) satisfies the session invariant |
| ElementImport.AddElementMatch | src/mesh/nastran_io.cpp:167-196 | after one record the new element has the record's eid, type, the subdomain of its key, and slot j holding its j-th listed node |
| ElementImport.AddElementHandles | src/mesh/nastran_io.cpp:168-171 | after one record the handle map is keyed by exactly the handles and gives each eid; the eid map sends each eid to its last handle |
| ElementImport.AddElementNumbering | src/mesh/nastran_io.cpp:181-184 | after one record the subdomain keys are exactly those seen, numbered 1 .. n injectively, with z = n + 1 |
| ElementImport.NewKeyNumbering | src/mesh/nastran_io.cpp:183-184 | giving a new key the value z and moving z on keeps the numbering dense and injective |
| ElementImport.AddElementFirstSeen | src/mesh/nastran_io.cpp:181-184 | a key first seen at position h gets one more than the number of distinct keys before h |
| ElementImport.AddElementInv | src/mesh/nastran_io.cpp:164-200 | one record (the inner loop body) preserves the session invariant |
| ElementImport.AddGroupInv | src/mesh/nastran_io.cpp:164-200 | a whole group preserves the session invariant, with its records appended in order |
| ElementImport.AddGroupsError | src/mesh/nastran_io.cpp:150-157 | read_elements fails exactly when some type name is unknown, and the error names the first such group |
| ElementImport.FailureSticks | src/mesh/nastran_io.cpp:154-157 | once a group has failed, the groups after it change nothing: no element of them is added |
| ElementImport.AddGroupsResult | src/mesh/nastran_io.cpp:137-202 | from any state that satisfies the invariant, the state reached satisfies it for the records of the groups before the first unknown name, in map order, record n getting handle n |
| ElementImport.TypedRecords | src/mesh/nastran_io.cpp:150-168 | every processed record is a record of some group, paired with that group's type |
| ElementImport.AddGroupStable | src/mesh/nastran_io.cpp:181-185 | within a group, a key that already has a subdomain id keeps it |
| ElementImport.SubdomainsStable | src/mesh/nastran_io.cpp:181-185 | over the whole import, no key that has a subdomain id is ever reassigned |
| ElementImport.Homogeneous | src/mesh/nastran_io.cpp:174-189 | two elements share a subdomain exactly when their records share the (pid, type) key, so a subdomain never mixes element types |
| ElementImport.HandleRoundTrip | src/mesh/nastran_io.cpp:170-171 | eid to handle to eid always returns the eid; handle to eid to handle returns the handle when no two records share an eid |
| ElementImport.ElemMapsAgree | src/mesh/nastran_io.cpp:168-172 | every element's id is a key of the eid map and leads to an element with that id; the handle map is keyed by exactly the handles |
| ElementImport.SubdomainsCovered | src/mesh/nastran_io.cpp:188-189 | every element's subdomain is one of the numbers in the subdomain map |
| ElementImport.StaleSessionCollision | src/mesh/nastran_io.cpp:148-149 | as written, a second import on the registries of a first one gives two different keys subdomain 1 |
| ElementImport.FreshImport | src/mesh/nastran_io.cpp:137-202 | from the empty session the error is that of the first unknown name, the invariant holds for the records added, and z is one past the numbering |
| ElementImport.FreshSessionInjective | src/mesh/nastran_io.cpp:181-184 | from the empty session the subdomain numbering is injective, with z - 1 equal to the number of keys |
| BoundaryImport.TagNodesExactly | src/mesh/nastran_io.cpp:214-217 | after one SPC set a (node, tag) pair is present exactly when it was before or the node is listed in the set under that tag |
| BoundaryImport.TaggedExactly | src/mesh/nastran_io.cpp:205-220 | node n carries tag t exactly when it did before or n is listed in the t-th SPC set, t counted from 1 in name order |
| BoundaryImport.TagIsRank | src/mesh/nastran_io.cpp:211-218 | with the SPC sets in std::map order, the set that gets tag g + 1 has exactly g set names sorting before its own, so a set's tag follows from its name |
| BoundaryImport.TaggedByName | src/mesh/nastran_io.cpp:210-218 | on the boundary `ReadFile` builds, node n carries the tag one more than the number of set names sorting before a set's name exactly when n is listed in that set |
| Nastran.NastranIO.constructor | src/mesh/nastran_io.cpp:52-60 | a new reader has empty registries, the given mesh and the given type table |
| Nastran.NastranIO.GetNastranToMeshNodeMap | src/mesh/nastran_io.cpp:72-75 | the registry as it stands; whenever the node registries agree with the mesh, it is keyed by exactly the mesh's nodes and the reverse map undoes it |
| Nastran.NastranIO.GetMeshToNastranNodeMap | src/mesh/nastran_io.cpp:78-81 | the registry as it stands; whenever the node registries agree with the mesh, it is keyed by exactly the mesh's nodes and the forward map undoes it |
| Nastran.NastranIO.GetNastranToMeshElemMap | src/mesh/nastran_io.cpp:83-86 | the registry as it stands; in a reader whose registries are valid, every element's id is a key, each key leads to an element with that id, and the reverse map leads back |
| Nastran.NastranIO.GetMeshToNastranElemMap | src/mesh/nastran_io.cpp:89-92 | the registry as it stands; in a reader whose registries are valid, it is keyed by exactly the element handles and gives each element's id |
| Nastran.NastranIO.GetPidElemTypeToSubdomainMap | src/mesh/nastran_io.cpp:109-112 | the numbering as it stands; in a reader whose registries are valid, an injective numbering 1 .. size that covers every element's subdomain |
| Nastran.NastranIO.PidToSubdomainIds | src/mesh/nastran_io.cpp:95-106 | a pid is a key exactly when some (pid, type) key has it, and sid is in its set exactly when such a key is numbered sid |
| Nastran.NastranIO.ReadNodes | src/mesh/nastran_io.cpp:114-134 | the points become Placed of the old points; both node registries gain each record id mapped to itself; node registries that agreed with the mesh still do, and the two are inverses of each other |
| Nastran.NastranIO.ReadRecord | src/mesh/nastran_io.cpp:166-199 | the mesh, the element registries and z become AddElement of the previous state |
| Nastran.NastranIO.ReadGroup | src/mesh/nastran_io.cpp:164-200 | the mesh, the element registries and z become AddGroup of the previous state; k is the element count |
| Nastran.NastranIO.ReadElements | src/mesh/nastran_io.cpp:137-202 | the error and the new state are those of AddGroups from the old registries with no elements and z = 1 |
| Nastran.NastranIO.ReadNodeBoundaries | src/mesh/nastran_io.cpp:205-220 | the boundary tags become Tagged of the old tags and the SPC sets |
| Nastran.NastranIO.StartImport | src/mesh/nastran_io.cpp:228-238 | the mesh is cleared, the dimension and nodes are read, and the registries hold only what this import added (the emptying is the correction under Findings) |
| Nastran.NastranIO.ReadElementsFresh | src/mesh/nastran_io.cpp:240-241 | from a fresh session read_elements leaves the state ElementsImported describes |
| Nastran.NastranIO.ReadMesh | src/mesh/nastran_io.cpp:253-265 | a cleared mesh holds the model's nodes and elements, with an empty boundary and not prepared |
| Nastran.NastranIO.ImportedValid | src/mesh/nastran_io.cpp:223-266 | what either read overload leaves behind satisfies the registry invariant the getters rely on |
| Nastran.NastranIO.TagAndPrepare | src/mesh/nastran_io.cpp:244-247 | the SPC sets are tagged onto the existing boundary as Tagged says, then the mesh is prepared; what the import established about nodes, elements and registries is unchanged |
| Nastran.NastranIO.ReadFile | src/mesh/nastran_io.cpp:223-248 | nodes and elements as above, and the registries are valid; on success the SPC sets are tagged and the mesh is prepared; on an unknown type name neither happens, and the SPC sets need not resolve |
| Nastran.NastranIO.Read | src/mesh/nastran_io.cpp:250-266 | nodes and elements as above, and the registries are valid; no boundary tags and no preparation; the SPC sets are not looked at |

## Left out

- The bulk-data parser (`buildBDFModel`, `getNodes`, `getElements`, `getSPCs`,
  pyNastran) is outside the model. A parsed model is an input. Its element
  groups and SPC sets come from std::maps (lines 145 and 210), so `ReadFile`
  and `Read` require their names to be strictly increasing (`SortedNames`).
- Python start-up and shutdown (constructor and destructor bodies,
  `initializePython`, `finalizePython`) and the printing helpers
  (`printNodeCoords`, `printElementMap`, `print_pid_to_subdomain_id_map`) are
  left out. They do not touch the mesh or the registries.
- `nastran_io.h` is not part of this model. The type table
  `nastranToLibMeshElem` is a constructor parameter, and each type carries its
  libMesh node count.
- libMesh internals are reduced to the fields the reader writes.
  `prepare_for_use` only sets a flag: its renumbering, neighbour search and
  partitioning are not modelled.
- Node and element pointers are identified by their handles. The model does not
  capture pointer aliasing or the object identity of libMesh nodes.
- Element ids, node ids and counts are unbounded naturals. The model does not
  capture the 32-bit `uint` node ids in element records, or the conversion of a
  negative eid to `dof_id_type`. A GRID id arrives as a double and is converted
  to `uint64_t` (line 127): a fractional id is truncated, and a negative one
  has no defined result. The model takes the id as a natural.
- Nastran.NastranIO.ReadRecord: the subdomain id written into the element is
  the full counter value. Its conversion to 16-bit `subdomain_id_type` (line 188)
  is not modelled; it only matters past 65535 keys.
- Nastran.NastranIO.ReadNodeBoundaries: the boundary tag is an unbounded
  natural. libMesh's 16-bit `boundary_id_type` is not modelled.
- Nastran.NastranIO.ReadElements: a record that lists a node id missing from the
  node registry, or more node ids than its element type has slots, is a
  precondition. The source dereferences a null pointer or trips a libMesh
  assertion there. The precondition covers only the groups the loop reaches:
  a group whose type name, and the names of all groups before it, are in the
  table. The groups from the first unknown name on are never read.
- Nastran.NastranIO.ReadNodeBoundaries: an SPC node id missing from the registry
  is a precondition. The source would insert a null entry and hand it to
  `add_node`. `ReadFile` asks it only when every type name is known, since
  an unknown name ends the import before the SPC sets are read.
- Nastran.NastranIO.StartImport: it empties every registry before the nodes
  are read. No line of `nastran_io.cpp` does this; it is the correction of
  the finding below, so on a reader that has imported before, the model
  differs from the code as written.
- Nastran.NastranIO.Read: it starts with `StartImport`, so it carries the
  same registry reset, which `read(BDFModel*)` does not have.
- Nastran.NastranIO.ReadFile: it starts with `StartImport`, so it carries the
  same registry reset, which `read(const std::string&)` does not have.
- Nastran.NastranIO.ReadElements: the mesh must hold no elements. libMesh's
  `elem_ptr(k)` returns the new element only then, and both read overloads clear
  the mesh first.
- A repeated node id or eid is not an error. The later record overwrites the
  registry entry, as the code does. The model follows the code here, not a
  stricter duplicate-id policy.
- Nastran.NastranIO.ReadFile: its claims about element ids, point keys and
  node registries describe the mesh just before `prepare_for_use`. By default
  libMesh's `prepare_for_use` renumbers nodes and elements, so in the real
  mesh the eids set at line 172 and the points stored under their GRID ids need
  not survive it; the model reduces that call to a flag.

## Findings

| source | as written | input that shows it | evidently intended | confidence | as-written member | corrected member |
|---|---|---|---|---|---|---|
| src/mesh/nastran_io.cpp:149 | `read` never clears the element registries or the subdomain map, yet `read_elements` restarts `z` at 1 | read one CBAR with pid 1, then on the same reader read CBARs with pids 2 and 1: the new key (2, CBAR) gets 1, already held by (1, CBAR), so both elements land in subdomain 1 | each import numbers its keys 1, 2, ... injectively, so a subdomain holds one (pid, type) key | medium, not executed | ElementImport.StaleSessionCollision | Nastran.NastranIO.ReadFile |

In the model, both read overloads start with `StartImport`, whose call to
`ResetSession` empties every registry. `Nastran.NastranIO.ReadElements` is the
code as written: its contract starts `AddGroups` from the registries an
earlier import left, with `z` back at 1, which is the starting state of the
second import in `ElementImport.StaleSessionCollision`. `ElementImport.FreshSessionInjective` and
`ElementImport.Homogeneous` prove the intended numbering for what they leave
behind.

=== FILE: bdf.dfy ===
/** Record shapes the bulk-data parser hands to the importer, the libMesh
    element-type values they are translated to, and the importer's errors.
    The parser itself is not part of this model: a parsed model is an input. */
module Bdf {

  datatype Option<T> = None | Some(value: T)

  /** Grid-point coordinates; kept opaque, no arithmetic is done on them. */
  datatype Point = Point(x: real, y: real, z: real)

  /** A node record, the vector [nid, x, y, z]. */
  datatype NodeRecord = NodeRecord(nid: nat, p: Point)

  /** An element record, the vector [eid, pid, n1, n2, ...]. */
  datatype ElemRecord = ElemRecord(eid: nat, pid: int, nodeIds: seq<nat>)

  /** One entry of a std::map keyed by name, as in-order iteration yields it. */
  datatype Group<T> = Group(name: string, items: seq<T>)

  /** The parsed model: expected counts and dimension, node records, element
      records grouped by type name, and SPC sets (name, node ids). */
  datatype BdfModel = BdfModel(
    nDims: nat,
    nNodes: nat,
    nElems: nat,
    nodes: seq<NodeRecord>,
    elements: seq<Group<ElemRecord>>,
    spcs: seq<Group<nat>>)

  /** A libMesh ElemType: its enum value and the node count Elem::build gives it. */
  datatype ElemType = ElemType(code: int, nodeCount: nat)

  /** The one fatal condition the importer itself reports. */
  datatype ImportError = UnsupportedElementType(name: string)

  /** std::less<std::string>: lexicographic order on characters. */
  predicate LexLess(a: string, b: string)
    decreases |a|
  {
    if |a| == 0 then |b| > 0
    else |b| > 0 && (a[0] < b[0] || (a[0] == b[0] && LexLess(a[1..], b[1..])))
  }

  /** Keys of a std::map come out strictly increasing. */
  predicate SortedNames<T>(gs: seq<Group<T>>)
  {
    forall i, j :: 0 <= i < j < |gs| ==> LexLess(gs[i].name, gs[j].name)
  }

  lemma {:induction false} LexLessIrreflexive(a: string)
    ensures !LexLess(a, a)
    decreases |a|
  {
    if |a| > 0 {
      LexLessIrreflexive(a[1..]);
    }
  }

  lemma {:induction false} LexLessAsymmetric(a: string, b: string)
    requires LexLess(a, b)
    ensures !LexLess(b, a)
    decreases |a|
  {
    if |a| > 0 && a[0] == b[0] {
      LexLessAsymmetric(a[1..], b[1..]);
    }
  }

  /** The set of external node ids the node records register. */
  function NodeIds(nodes: seq<NodeRecord>): set<nat>
  {
    set i | 0 <= i < |nodes| :: nodes[i].nid
  }

  lemma NodeIdsSnoc(nodes: seq<NodeRecord>, n: NodeRecord)
    ensures NodeIds(nodes + [n]) == NodeIds(nodes) + {n.nid}
  {
    var s := nodes + [n];
    forall id | id in NodeIds(s) ensures id in NodeIds(nodes) + {n.nid} {
      var i :| 0 <= i < |s| && s[i].nid == id;
      if i < |nodes| { assert nodes[i] == s[i]; }
    }
    forall id | id in NodeIds(nodes) + {n.nid} ensures id in NodeIds(s) {
      if id == n.nid {
        assert s[|nodes|].nid == id;
      } else {
        var i :| 0 <= i < |nodes| && nodes[i].nid == id;
        assert s[i].nid == id;
      }
    }
  }
}

=== FILE: boundary_import.dfy ===
/** What read_node_boundaries leaves behind: every node of the i-th SPC set
    (1-based, in name order) tagged with boundary id i. */
module BoundaryImport {
  import opened Bdf

  /** Every listed node id is registered. */
  predicate Resolved(nm: map<nat, nat>, ids: seq<nat>)
  {
    forall i :: 0 <= i < |ids| ==> ids[i] in nm
  }

  predicate AllResolved(nm: map<nat, nat>, spcs: seq<Group<nat>>)
  {
    forall g :: 0 <= g < |spcs| ==> Resolved(nm, spcs[g].items)
  }

  /** The boundary after add_node(node, tag) for each listed id in order. */
  function TagNodes(b: set<(nat, nat)>, nm: map<nat, nat>, ids: seq<nat>, tag: nat): set<(nat, nat)>
    requires Resolved(nm, ids)
    decreases |ids|
  {
    if |ids| == 0 then b
    else TagNodes(b, nm, ids[..|ids| - 1], tag) + {(nm[ids[|ids| - 1]], tag)}
  }

  /** The boundary after all SPC sets in order; the set at index g gets tag g + 1. */
  function Tagged(b: set<(nat, nat)>, nm: map<nat, nat>, spcs: seq<Group<nat>>): set<(nat, nat)>
    requires AllResolved(nm, spcs)
    decreases |spcs|
  {
    if |spcs| == 0 then b
    else TagNodes(Tagged(b, nm, spcs[..|spcs| - 1]), nm, spcs[|spcs| - 1].items, |spcs|)
  }

  /** Node n is listed, through the node map, in the SPC set that gets tag t. */
  predicate Listed(nm: map<nat, nat>, spcs: seq<Group<nat>>, n: nat, t: nat)
  {
    1 <= t <= |spcs|
    && var ids := spcs[t - 1].items;
       exists i :: 0 <= i < |ids| && ids[i] in nm && nm[ids[i]] == n
  }

  lemma {:induction false} TagNodesExactly(b: set<(nat, nat)>, nm: map<nat, nat>, ids: seq<nat>, tag: nat, n: nat, t: nat)
    requires Resolved(nm, ids)
    ensures (n, t) in TagNodes(b, nm, ids, tag)
            <==> (n, t) in b || (t == tag && exists i :: 0 <= i < |ids| && nm[ids[i]] == n)
    decreases |ids|
  {
    if |ids| > 0 {
      var init := ids[..|ids| - 1];
      TagNodesExactly(b, nm, init, tag, n, t);
      if t == tag && (exists i :: 0 <= i < |ids| && nm[ids[i]] == n) {
        var i :| 0 <= i < |ids| && nm[ids[i]] == n;
        if i < |ids| - 1 {
          assert init[i] == ids[i];
        }
      }
      if t == tag && (exists i :: 0 <= i < |init| && nm[init[i]] == n) {
        var i :| 0 <= i < |init| && nm[init[i]] == n;
        assert ids[i] == init[i];
      }
    }
  }

  /** Boundary completeness and soundness: a node carries tag t after the
      import exactly when it carried it before or it is listed in the t-th
      SPC set; no node gets the tag of a set it is not in. */
  lemma {:induction false} TaggedExactly(b: set<(nat, nat)>, nm: map<nat, nat>, spcs: seq<Group<nat>>, n: nat, t: nat)
    requires AllResolved(nm, spcs)
    ensures (n, t) in Tagged(b, nm, spcs) <==> (n, t) in b || Listed(nm, spcs, n, t)
    decreases |spcs|
  {
    if |spcs| > 0 {
      var init := spcs[..|spcs| - 1];
      var last := spcs[|spcs| - 1];
      TaggedExactly(b, nm, init, n, t);
      TagNodesExactly(Tagged(b, nm, init), nm, last.items, |spcs|, n, t);
      if 1 <= t < |spcs| {
        assert init[t - 1] == spcs[t - 1];
      }
    }
  }

  /** Indices of the SPC sets whose names sort before name. */
  function SetsBefore(spcs: seq<Group<nat>>, name: string): set<nat>
  {
    set j: nat | j < |spcs| && LexLess(spcs[j].name, name)
  }

  /** The indices 0 .. n - 1. */
  function Below(n: nat): (r: set<nat>)
    ensures forall j: nat :: j in r <==> j < n
    ensures |r| == n
  {
    if n == 0 then {} else Below(n - 1) + {n - 1}
  }

  /** With the sets in std::map order, the set at index g, which gets tag
      g + 1, is preceded in name order by exactly g set names: a set's tag is
      one more than the number of names that sort before its own. */
  lemma TagIsRank(spcs: seq<Group<nat>>, g: nat)
    requires SortedNames(spcs) && g < |spcs|
    ensures |SetsBefore(spcs, spcs[g].name)| == g
  {
    forall j: nat | j < |spcs|
      ensures LexLess(spcs[j].name, spcs[g].name) <==> j < g
    {
      if j == g {
        LexLessIrreflexive(spcs[g].name);
      } else if g < j {
        LexLessAsymmetric(spcs[g].name, spcs[j].name);
      }
    }
    assert SetsBefore(spcs, spcs[g].name) == Below(g);
  }

  /** The boundary read_node_boundaries builds, by set name: with the SPC
      sets in std::map order, node n carries the tag one more than the number
      of set names sorting before a set's name exactly when n is listed in
      that set. */
  lemma TaggedByName(nm: map<nat, nat>, spcs: seq<Group<nat>>, g: nat, n: nat)
    requires AllResolved(nm, spcs) && SortedNames(spcs) && g < |spcs|
    ensures var ids := spcs[g].items;
            (n, |SetsBefore(spcs, spcs[g].name)| + 1) in Tagged({}, nm, spcs)
            <==> exists i :: 0 <= i < |ids| && nm[ids[i]] == n
  {
    TagIsRank(spcs, g);
    TaggedExactly({}, nm, spcs, n, g + 1);
  }
}

=== FILE: element_import.dfy ===
/** What read_elements leaves behind, as functions of the element groups:
    the mesh elements in handle order, the two element maps, and the
    (pid, element type) -> subdomain numbering. */
module ElementImport {
  import opened Bdf
  import opened MeshSink

  /** Key of pid_elemType2subdomainMap: the pid after its conversion to
      libMesh's 16-bit subdomain_id_type, and the element type's enum value. */
  datatype SubKey = SubKey(pid: int, elemType: int)

  /** Number of values of subdomain_id_type (an unsigned 16-bit integer). */
  const SubdomainIdRange: int := 0x1_0000

  /** The key formed for a record of kind t. The pid is converted to an
      unsigned 16-bit value: the one value in 0 .. 2^16-1 congruent to it
      modulo 2^16, so a pid already in that range is kept as it is. */
  function KeyOf(t: ElemType, r: ElemRecord): (k: SubKey)
    ensures 0 <= k.pid < SubdomainIdRange && k.elemType == t.code
    ensures (r.pid - k.pid) % SubdomainIdRange == 0
    ensures 0 <= r.pid < SubdomainIdRange ==> k.pid == r.pid
  {
    SubKey(r.pid % SubdomainIdRange, t.code)
  }

  /** The record's node ids resolve and fit into the element's slots. */
  predicate Connectable(nm: map<nat, nat>, t: ElemType, r: ElemRecord)
  {
    |r.nodeIds| <= t.nodeCount && forall j :: 0 <= j < |r.nodeIds| ==> r.nodeIds[j] in nm
  }

  /** Slots of an element of kind t once the first j listed nodes are set. */
  function Slots(nm: map<nat, nat>, t: ElemType, ids: seq<nat>, j: nat): seq<Option<nat>>
  {
    seq(t.nodeCount, i requires 0 <= i < t.nodeCount => if i < j && i < |ids| && ids[i] in nm then Some(nm[ids[i]]) else None)
  }

  /** A freshly built element has no slot set. */
  lemma SlotsStart(nm: map<nat, nat>, t: ElemType, ids: seq<nat>, id: nat)
    ensures Blank(t, id).slots == Slots(nm, t, ids, 0)
  {
  }

  /** Setting slot j to the j-th listed node. */
  lemma SlotsStep(nm: map<nat, nat>, t: ElemType, ids: seq<nat>, j: nat)
    requires j < |ids| && j < t.nodeCount && ids[j] in nm
    ensures Slots(nm, t, ids, j)[j := Some(nm[ids[j]])] == Slots(nm, t, ids, j + 1)
  {
  }

  /** Replacing the element just appended. */
  lemma ReplaceLast(es: seq<Elem>, e: Elem, e': Elem)
    ensures (es + [e])[|es| := e'] == es + [e']
  {
  }

  /** The bookkeeping read_elements updates: the mesh elements (handle =
      position), nastran2libMeshElemMap, libMesh2NastranElemMap,
      pid_elemType2subdomainMap, and the counter z. */
  datatype ElemState = ElemState(
    elems: seq<Elem>,
    toHandle: map<nat, nat>,
    toEid: map<nat, nat>,
    subdomains: map<SubKey, int>,
    z: int)

  /** The state of a session that starts from nothing. */
  const Fresh: ElemState := ElemState([], map[], map[], map[], 1)

  /** One element record of kind t. */
  function AddElement(s: ElemState, nm: map<nat, nat>, t: ElemType, r: ElemRecord): ElemState
    requires Connectable(nm, t, r)
  {
    var k := |s.elems|;
    var key := KeyOf(t, r);
    var sub := if key in s.subdomains then s.subdomains else s.subdomains[key := s.z];
    var z := if key in s.subdomains then s.z else s.z + 1;
    ElemState(
      s.elems + [Elem(r.eid, t, sub[key], Slots(nm, t, r.nodeIds, |r.nodeIds|))],
      s.toHandle[r.eid := k],
      s.toEid[k := r.eid],
      sub,
      z)
  }

  predicate AllConnectable(nm: map<nat, nat>, t: ElemType, rs: seq<ElemRecord>)
  {
    forall i :: 0 <= i < |rs| ==> Connectable(nm, t, rs[i])
  }

  /** The records of one type group, in order. */
  function AddGroup(s: ElemState, nm: map<nat, nat>, t: ElemType, rs: seq<ElemRecord>): ElemState
    requires AllConnectable(nm, t, rs)
    decreases |rs|
  {
    if |rs| == 0 then s
    else AddElement(AddGroup(s, nm, t, rs[..|rs| - 1]), nm, t, rs[|rs| - 1])
  }

  /** Every record of a group that read_elements reaches resolves and fits.
      A group is reached when its type name and those of all groups before
      it are in the table; the groups after an unknown name are never read. */
  predicate GroupsConnectable(nm: map<nat, nat>, table: map<string, ElemType>, gs: seq<Group<ElemRecord>>)
  {
    forall g :: 0 <= g < |gs| && gs[g].name in table && AllKnown(table, gs[..g])
      ==> AllConnectable(nm, table[gs[g].name], gs[g].items)
  }

  /** Every group's type name is in the table. */
  predicate AllKnown(table: map<string, ElemType>, gs: seq<Group<ElemRecord>>)
  {
    forall g :: 0 <= g < |gs| ==> gs[g].name in table
  }

  /** The result of read_elements: the state reached, and the error if a
      type name was not found. */
  datatype Outcome = Outcome(state: ElemState, err: Option<ImportError>)

  /** The groups in map order; an unknown type name stops the import before
      any element of its group is added. */
  function AddGroups(s: ElemState, nm: map<nat, nat>, table: map<string, ElemType>, gs: seq<Group<ElemRecord>>): (o: Outcome)
    requires GroupsConnectable(nm, table, gs)
    ensures o.err.None? ==> AllKnown(table, gs)
    decreases |gs|
  {
    if |gs| == 0 then Outcome(s, None)
    else
      var init := gs[..|gs| - 1];
      PrefixConnectable(nm, table, gs);
      var o := AddGroups(s, nm, table, init);
      var last := gs[|gs| - 1];
      if o.err.Some? then o
      else if last.name !in table then Outcome(o.state, Some(UnsupportedElementType(last.name)))
      else Outcome(AddGroup(o.state, nm, table[last.name], last.items), None)
  }

  /** Any prefix of connectable groups is connectable. */
  lemma PrefixesConnectable(nm: map<nat, nat>, table: map<string, ElemType>, gs: seq<Group<ElemRecord>>, n: nat)
    requires GroupsConnectable(nm, table, gs) && n <= |gs|
    ensures GroupsConnectable(nm, table, gs[..n])
  {
    forall g | 0 <= g < n && gs[..n][g].name in table && AllKnown(table, gs[..n][..g])
      ensures AllConnectable(nm, table[gs[..n][g].name], gs[..n][g].items)
    {
      assert gs[..n][g] == gs[g] && gs[..n][..g] == gs[..g];
    }
  }

  /** The records of a group one at a time. */
  lemma AddGroupAt(s: ElemState, nm: map<nat, nat>, t: ElemType, rs: seq<ElemRecord>, i: nat)
    requires AllConnectable(nm, t, rs) && i < |rs|
    ensures AddGroup(s, nm, t, rs[..i + 1]) == AddElement(AddGroup(s, nm, t, rs[..i]), nm, t, rs[i])
  {
    assert rs[..i + 1][..i] == rs[..i];
  }

  /** The groups one at a time, as the outer loop of read_elements visits them. */
  lemma AddGroupsAt(s: ElemState, nm: map<nat, nat>, table: map<string, ElemType>, gs: seq<Group<ElemRecord>>, g: nat)
    requires GroupsConnectable(nm, table, gs) && g < |gs|
    ensures GroupsConnectable(nm, table, gs[..g]) && GroupsConnectable(nm, table, gs[..g + 1])
    ensures AddGroups(s, nm, table, gs[..g]).err.None? && gs[g].name in table
            ==> AllConnectable(nm, table[gs[g].name], gs[g].items)
    ensures var o := AddGroups(s, nm, table, gs[..g]);
            AddGroups(s, nm, table, gs[..g + 1])
              == if o.err.Some? then o
                 else if gs[g].name !in table then Outcome(o.state, Some(UnsupportedElementType(gs[g].name)))
                 else Outcome(AddGroup(o.state, nm, table[gs[g].name], gs[g].items), None)
  {
    PrefixesConnectable(nm, table, gs, g);
    PrefixesConnectable(nm, table, gs, g + 1);
    assert gs[..g + 1][..g] == gs[..g];
  }

  /** The step read_elements takes at group g from the state cur reached
      without error: an unknown name ends the import with cur and that
      name, a known one adds its records. */
  lemma AddGroupsNext(s: ElemState, nm: map<nat, nat>, table: map<string, ElemType>,
                      gs: seq<Group<ElemRecord>>, g: nat, cur: ElemState)
    requires GroupsConnectable(nm, table, gs) && g < |gs|
    requires GroupsConnectable(nm, table, gs[..g]) && AddGroups(s, nm, table, gs[..g]) == Outcome(cur, None)
    ensures GroupsConnectable(nm, table, gs[..g + 1])
    ensures gs[g].name !in table ==>
              AddGroups(s, nm, table, gs) == Outcome(cur, Some(UnsupportedElementType(gs[g].name)))
    ensures gs[g].name in table ==>
              && AllConnectable(nm, table[gs[g].name], gs[g].items)
              && AddGroups(s, nm, table, gs[..g + 1]) == Outcome(AddGroup(cur, nm, table[gs[g].name], gs[g].items), None)
  {
    AddGroupsAt(s, nm, table, gs, g);
    if gs[g].name !in table {
      FailureSticks(s, nm, table, gs, g + 1);
    }
  }

  /** Once a group has failed, the groups after it change nothing. */
  lemma {:induction false} FailureSticks(s: ElemState, nm: map<nat, nat>, table: map<string, ElemType>,
                                         gs: seq<Group<ElemRecord>>, n: nat)
    requires GroupsConnectable(nm, table, gs) && n <= |gs|
    requires GroupsConnectable(nm, table, gs[..n]) && AddGroups(s, nm, table, gs[..n]).err.Some?
    ensures AddGroups(s, nm, table, gs) == AddGroups(s, nm, table, gs[..n])
    decreases |gs|
  {
    if n < |gs| {
      var init := gs[..|gs| - 1];
      PrefixConnectable(nm, table, gs);
      assert init[..n] == gs[..n];
      FailureSticks(s, nm, table, init, n);
    } else {
      assert gs[..n] == gs;
    }
  }

  /** Index of the first group whose type name is not in the table, or |gs|. */
  function FirstUnknown(table: map<string, ElemType>, gs: seq<Group<ElemRecord>>): (g: nat)
    ensures g <= |gs| && AllKnown(table, gs[..g])
    ensures g < |gs| ==> gs[g].name !in table
    decreases |gs|
  {
    if |gs| == 0 then 0
    else
      var init := gs[..|gs| - 1];
      var g := FirstUnknown(table, init);
      assert init[..g] == gs[..g];
      if g < |gs| - 1 then
        assert init[g] == gs[g];
        g
      else if gs[|gs| - 1].name !in table then g
      else
        assert gs[..|gs|] == gs;
        |gs|
  }

  /** Records of a group paired with the group's kind. */
  function Tag(t: ElemType, rs: seq<ElemRecord>): seq<(ElemType, ElemRecord)>
  {
    seq(|rs|, i requires 0 <= i < |rs| => (t, rs[i]))
  }

  /** All records of the groups, in processing order, each with its kind:
      position n is the record that gets handle n. */
  function Typed(table: map<string, ElemType>, gs: seq<Group<ElemRecord>>): seq<(ElemType, ElemRecord)>
    requires AllKnown(table, gs)
    decreases |gs|
  {
    if |gs| == 0 then []
    else
      var last := gs[|gs| - 1];
      Typed(table, gs[..|gs| - 1]) + Tag(table[last.name], last.items)
  }

  /** The element at a handle was built from the record with that position. */
  predicate Built(e: Elem, nm: map<nat, nat>, t: ElemType, r: ElemRecord, sub: map<SubKey, int>)
  {
    && e.id == r.eid
    && e.kind == t
    && e.slots == Slots(nm, t, r.nodeIds, |r.nodeIds|)
    && KeyOf(t, r) in sub
    && e.subdomain == sub[KeyOf(t, r)]
  }

  ghost predicate ElemsMatch(s: ElemState, nm: map<nat, nat>, fl: seq<(ElemType, ElemRecord)>)
  {
    && |s.elems| == |fl|
    && forall h :: 0 <= h < |fl| ==> Built(s.elems[h], nm, fl[h].0, fl[h].1, s.subdomains)
  }

  /** libMesh2NastranElemMap is keyed by exactly the handles and gives each
      element's eid; nastran2libMeshElemMap sends an eid to the last handle
      that carries it. */
  ghost predicate HandleMaps(s: ElemState, fl: seq<(ElemType, ElemRecord)>)
  {
    && (forall h :: h in s.toEid <==> 0 <= h < |fl|)
    && (forall h :: 0 <= h < |fl| ==> s.toEid[h] == fl[h].1.eid)
    && (forall eid :: eid in s.toHandle ==> s.toHandle[eid] < |fl| && fl[s.toHandle[eid]].1.eid == eid)
    && (forall h :: 0 <= h < |fl| ==> fl[h].1.eid in s.toHandle && h <= s.toHandle[fl[h].1.eid])
  }

  /** The distinct keys among the records. */
  function KeysOf(fl: seq<(ElemType, ElemRecord)>): set<SubKey>
    decreases |fl|
  {
    if |fl| == 0 then {}
    else KeysOf(fl[..|fl| - 1]) + {KeyOf(fl[|fl| - 1].0, fl[|fl| - 1].1)}
  }

  predicate Injective(m: map<SubKey, int>)
  {
    forall a, b :: a in m && b in m && m[a] == m[b] ==> a == b
  }

  /** Subdomain numbering in first-seen order: the keys are exactly those of
      the records, numbered 1 .. |keys| without repetition, z is the next
      number, and a key first seen at position h gets one more than the
      number of distinct keys before h. */
  ghost predicate Numbering(s: ElemState, fl: seq<(ElemType, ElemRecord)>)
  {
    && s.subdomains.Keys == KeysOf(fl)
    && s.z == |s.subdomains| + 1
    && (forall key :: key in s.subdomains ==> 1 <= s.subdomains[key] < s.z)
    && Injective(s.subdomains)
  }

  /** A key first seen at position h gets one more than the number of
      distinct keys before h. */
  ghost predicate FirstSeen(sub: map<SubKey, int>, fl: seq<(ElemType, ElemRecord)>)
  {
    forall h :: 0 <= h < |fl| && KeyOf(fl[h].0, fl[h].1) !in KeysOf(fl[..h])
      ==> KeyOf(fl[h].0, fl[h].1) in sub && sub[KeyOf(fl[h].0, fl[h].1)] == |KeysOf(fl[..h])| + 1
  }

  /** What a session guarantees after processing the records fl. */
  ghost predicate Inv(s: ElemState, nm: map<nat, nat>, fl: seq<(ElemType, ElemRecord)>)
  {
    ElemsMatch(s, nm, fl) && HandleMaps(s, fl) && Numbering(s, fl) && FirstSeen(s.subdomains, fl)
  }

  lemma FreshInv(nm: map<nat, nat>)
    ensures Inv(Fresh, nm, [])
  {
  }

  lemma KeysOfSnoc(fl: seq<(ElemType, ElemRecord)>, x: (ElemType, ElemRecord))
    ensures KeysOf(fl + [x]) == KeysOf(fl) + {KeyOf(x.0, x.1)}
  {
    assert (fl + [x])[..|fl|] == fl;
  }

  lemma AddElementMatch(s: ElemState, nm: map<nat, nat>, fl: seq<(ElemType, ElemRecord)>, t: ElemType, r: ElemRecord)
    requires ElemsMatch(s, nm, fl) && Connectable(nm, t, r)
    ensures ElemsMatch(AddElement(s, nm, t, r), nm, fl + [(t, r)])
  {
    var s' := AddElement(s, nm, t, r);
    var fl' := fl + [(t, r)];
    forall h | 0 <= h < |fl'| ensures Built(s'.elems[h], nm, fl'[h].0, fl'[h].1, s'.subdomains) {
      if h < |fl| {
        assert fl'[h] == fl[h] && s'.elems[h] == s.elems[h];
      }
    }
  }

  lemma AddElementHandles(s: ElemState, nm: map<nat, nat>, fl: seq<(ElemType, ElemRecord)>, t: ElemType, r: ElemRecord)
    requires HandleMaps(s, fl) && |s.elems| == |fl| && Connectable(nm, t, r)
    ensures HandleMaps(AddElement(s, nm, t, r), fl + [(t, r)])
  {
    var s' := AddElement(s, nm, t, r);
    var fl' := fl + [(t, r)];
    forall h | 0 <= h < |fl'| ensures fl'[h].1.eid in s'.toHandle && h <= s'.toHandle[fl'[h].1.eid] {
      if h < |fl| { assert fl'[h] == fl[h]; }
    }
    forall eid | eid in s'.toHandle ensures s'.toHandle[eid] < |fl'| && fl'[s'.toHandle[eid]].1.eid == eid {
      if eid != r.eid { assert fl'[s.toHandle[eid]] == fl[s.toHandle[eid]]; }
    }
  }

  lemma AddElementNumbering(s: ElemState, nm: map<nat, nat>, fl: seq<(ElemType, ElemRecord)>, t: ElemType, r: ElemRecord)
    requires Numbering(s, fl) && Connectable(nm, t, r)
    ensures Numbering(AddElement(s, nm, t, r), fl + [(t, r)])
  {
    var key := KeyOf(t, r);
    KeysOfSnoc(fl, (t, r));
    if key !in s.subdomains {
      NewKeyNumbering(s.subdomains, s.z, key);
    }
  }

  /** Giving a new key the next number keeps a numbering dense and injective. */
  lemma NewKeyNumbering(sub: map<SubKey, int>, z: int, key: SubKey)
    requires key !in sub && z == |sub| + 1 && Injective(sub)
    requires forall k :: k in sub ==> 1 <= sub[k] < z
    ensures var sub' := sub[key := z];
            && sub'.Keys == sub.Keys + {key} && |sub'| == |sub| + 1
            && (forall k :: k in sub' ==> 1 <= sub'[k] < z + 1)
            && Injective(sub')
  {
    var sub' := sub[key := z];
    assert sub'.Keys == sub.Keys + {key};
    forall a, b | a in sub' && b in sub' && sub'[a] == sub'[b] ensures a == b {
      if a != key && b != key {
        assert sub'[a] == sub[a] && sub'[b] == sub[b];
      }
    }
  }

  lemma AddElementFirstSeen(s: ElemState, nm: map<nat, nat>, fl: seq<(ElemType, ElemRecord)>, t: ElemType, r: ElemRecord)
    requires Numbering(s, fl) && FirstSeen(s.subdomains, fl) && Connectable(nm, t, r)
    ensures FirstSeen(AddElement(s, nm, t, r).subdomains, fl + [(t, r)])
  {
    var s' := AddElement(s, nm, t, r);
    var fl' := fl + [(t, r)];
    forall h | 0 <= h < |fl'| && KeyOf(fl'[h].0, fl'[h].1) !in KeysOf(fl'[..h])
      ensures KeyOf(fl'[h].0, fl'[h].1) in s'.subdomains
      ensures s'.subdomains[KeyOf(fl'[h].0, fl'[h].1)] == |KeysOf(fl'[..h])| + 1
    {
      if h < |fl| {
        assert fl'[h] == fl[h] && fl'[..h] == fl[..h];
      } else {
        assert fl'[..h] == fl;
      }
    }
  }

  lemma AddElementInv(s: ElemState, nm: map<nat, nat>, fl: seq<(ElemType, ElemRecord)>, t: ElemType, r: ElemRecord)
    requires Inv(s, nm, fl) && Connectable(nm, t, r)
    ensures Inv(AddElement(s, nm, t, r), nm, fl + [(t, r)])
  {
    AddElementMatch(s, nm, fl, t, r);
    AddElementHandles(s, nm, fl, t, r);
    AddElementNumbering(s, nm, fl, t, r);
    AddElementFirstSeen(s, nm, fl, t, r);
  }

  lemma TagSnoc(fl: seq<(ElemType, ElemRecord)>, t: ElemType, rs: seq<ElemRecord>)
    requires |rs| > 0
    ensures fl + Tag(t, rs[..|rs| - 1]) + [(t, rs[|rs| - 1])] == fl + Tag(t, rs)
  {
  }

  lemma {:induction false} AddGroupInv(s: ElemState, nm: map<nat, nat>, fl: seq<(ElemType, ElemRecord)>, t: ElemType, rs: seq<ElemRecord>)
    requires Inv(s, nm, fl) && AllConnectable(nm, t, rs)
    ensures Inv(AddGroup(s, nm, t, rs), nm, fl + Tag(t, rs))
    decreases |rs|
  {
    if |rs| == 0 {
      assert fl + Tag(t, rs) == fl;
    } else {
      var init := rs[..|rs| - 1];
      AddGroupInv(s, nm, fl, t, init);
      TagSnoc(fl, t, rs);
      AddElementInv(AddGroup(s, nm, t, init), nm, fl + Tag(t, init), t, rs[|rs| - 1]);
    }
  }

  /** read_elements fails exactly when some type name is not in the table,
      and then names the first such group. */
  lemma {:induction false} AddGroupsError(s: ElemState, nm: map<nat, nat>, table: map<string, ElemType>,
                                          gs: seq<Group<ElemRecord>>)
    requires GroupsConnectable(nm, table, gs)
    ensures var g := FirstUnknown(table, gs);
            AddGroups(s, nm, table, gs).err == (if g < |gs| then Some(UnsupportedElementType(gs[g].name)) else None)
    decreases |gs|
  {
    if |gs| > 0 {
      var init := gs[..|gs| - 1];
      PrefixConnectable(nm, table, gs);
      AddGroupsError(s, nm, table, init);
      var g0 := FirstUnknown(table, init);
      if g0 < |gs| - 1 {
        assert init[g0] == gs[g0];
      }
    }
  }

  /** The whole of read_elements from a state that satisfies the session
      invariant: the elements present afterwards are exactly those of the
      groups before the first unknown type name (all groups on success), one
      per record in map order, with handle n for the n-th record, its eid,
      kind, subdomain and node slots, and the maps and numbering that go with
      them. */
  lemma {:induction false} AddGroupsResult(s: ElemState, nm: map<nat, nat>, table: map<string, ElemType>,
                                           gs: seq<Group<ElemRecord>>, fl: seq<(ElemType, ElemRecord)>)
    requires GroupsConnectable(nm, table, gs) && Inv(s, nm, fl)
    ensures Inv(AddGroups(s, nm, table, gs).state, nm, fl + Typed(table, gs[..FirstUnknown(table, gs)]))
    decreases |gs|
  {
    if |gs| == 0 {
      assert fl + Typed(table, gs[..0]) == fl;
    } else {
      PrefixConnectable(nm, table, gs);
      AddGroupsResult(s, nm, table, gs[..|gs| - 1], fl);
      AddGroupsResultStep(s, nm, table, gs, fl);
    }
  }

  /** The inductive step of AddGroupsResult: from the invariant after all
      groups but the last to the invariant after all of them. */
  lemma AddGroupsResultStep(s: ElemState, nm: map<nat, nat>, table: map<string, ElemType>,
                            gs: seq<Group<ElemRecord>>, fl: seq<(ElemType, ElemRecord)>)
    requires GroupsConnectable(nm, table, gs) && |gs| > 0
    requires GroupsConnectable(nm, table, gs[..|gs| - 1])
    requires var init := gs[..|gs| - 1];
             Inv(AddGroups(s, nm, table, init).state, nm, fl + Typed(table, init[..FirstUnknown(table, init)]))
    ensures Inv(AddGroups(s, nm, table, gs).state, nm, fl + Typed(table, gs[..FirstUnknown(table, gs)]))
  {
    var init := gs[..|gs| - 1];
    var last := gs[|gs| - 1];
    var g0 := FirstUnknown(table, init);
    var o := AddGroups(s, nm, table, init);
    AddGroupsStep(s, nm, table, gs);
    var after := fl + Typed(table, gs[..FirstUnknown(table, gs)]);
    if g0 < |gs| - 1 || last.name !in table {
      assert gs[..g0] == init[..g0];
      assert after == fl + Typed(table, init[..g0]);
      assert AddGroups(s, nm, table, gs).state == o.state;
    } else {
      assert init[..g0] == init;
      LastGroupInv(o.state, nm, table, gs, fl);
      assert after == fl + Typed(table, gs[..|gs|]);
      assert AddGroups(s, nm, table, gs).state == AddGroup(o.state, nm, table[last.name], last.items);
    }
  }

  /** One more group, as AddGroups and FirstUnknown see it. */
  lemma AddGroupsStep(s: ElemState, nm: map<nat, nat>, table: map<string, ElemType>, gs: seq<Group<ElemRecord>>)
    requires GroupsConnectable(nm, table, gs) && |gs| > 0
    ensures GroupsConnectable(nm, table, gs[..|gs| - 1])
    ensures var init := gs[..|gs| - 1];
            var last := gs[|gs| - 1];
            var g0 := FirstUnknown(table, init);
            var o := AddGroups(s, nm, table, init);
            if g0 < |gs| - 1 || last.name !in table then
              FirstUnknown(table, gs) == g0 && AddGroups(s, nm, table, gs).state == o.state
            else
              && last.name in table && AllConnectable(nm, table[last.name], last.items)
              && FirstUnknown(table, gs) == |gs|
              && AddGroups(s, nm, table, gs).state == AddGroup(o.state, nm, table[last.name], last.items)
  {
    var init := gs[..|gs| - 1];
    PrefixConnectable(nm, table, gs);
    AddGroupsError(s, nm, table, init);
    var g0 := FirstUnknown(table, init);
    if g0 < |gs| - 1 {
      assert init[g0] == gs[g0];
    }
  }

  lemma LastGroupInv(o: ElemState, nm: map<nat, nat>, table: map<string, ElemType>,
                     gs: seq<Group<ElemRecord>>, fl: seq<(ElemType, ElemRecord)>)
    requires |gs| > 0 && AllKnown(table, gs[..|gs| - 1]) && gs[|gs| - 1].name in table
    requires AllConnectable(nm, table[gs[|gs| - 1].name], gs[|gs| - 1].items)
    requires Inv(o, nm, fl + Typed(table, gs[..|gs| - 1]))
    ensures AllKnown(table, gs[..|gs|])
    ensures Inv(AddGroup(o, nm, table[gs[|gs| - 1].name], gs[|gs| - 1].items), nm, fl + Typed(table, gs[..|gs|]))
  {
    var last := gs[|gs| - 1];
    AddGroupInv(o, nm, fl + Typed(table, gs[..|gs| - 1]), table[last.name], last.items);
    TypedSnoc(fl, table, gs);
  }

  lemma PrefixConnectable(nm: map<nat, nat>, table: map<string, ElemType>, gs: seq<Group<ElemRecord>>)
    requires GroupsConnectable(nm, table, gs) && |gs| > 0
    ensures GroupsConnectable(nm, table, gs[..|gs| - 1])
  {
    PrefixesConnectable(nm, table, gs, |gs| - 1);
  }

  lemma TypedSnoc(fl: seq<(ElemType, ElemRecord)>, table: map<string, ElemType>, gs: seq<Group<ElemRecord>>)
    requires |gs| > 0 && AllKnown(table, gs[..|gs| - 1]) && gs[|gs| - 1].name in table
    ensures AllKnown(table, gs[..|gs|])
    ensures fl + Typed(table, gs[..|gs| - 1]) + Tag(table[gs[|gs| - 1].name], gs[|gs| - 1].items)
            == fl + Typed(table, gs[..|gs|])
  {
    assert gs[..|gs|] == gs;
    assert gs[..|gs|][..|gs| - 1] == gs[..|gs| - 1];
  }

  /** Every element record processed is one of the records. */
  lemma TypedRecords(table: map<string, ElemType>, gs: seq<Group<ElemRecord>>, n: nat)
    requires AllKnown(table, gs) && n < |Typed(table, gs)|
    ensures exists g, i :: 0 <= g < |gs| && 0 <= i < |gs[g].items|
              && Typed(table, gs)[n] == (table[gs[g].name], gs[g].items[i])
    decreases |gs|
  {
    var init := gs[..|gs| - 1];
    var last := gs[|gs| - 1];
    assert AllKnown(table, init) by {
      forall g | 0 <= g < |init| ensures init[g].name in table { assert init[g] == gs[g]; }
    }
    if n < |Typed(table, init)| {
      TypedRecords(table, init, n);
      var g, i :| 0 <= g < |init| && 0 <= i < |init[g].items|
                  && Typed(table, init)[n] == (table[init[g].name], init[g].items[i]);
      assert init[g] == gs[g];
    } else {
      var i := n - |Typed(table, init)|;
      assert Typed(table, gs)[n] == (table[last.name], last.items[i]);
    }
  }

  /** Once assigned, a key keeps its subdomain id. */
  lemma {:induction false} AddGroupStable(s: ElemState, nm: map<nat, nat>, t: ElemType, rs: seq<ElemRecord>)
    requires AllConnectable(nm, t, rs)
    ensures var s' := AddGroup(s, nm, t, rs);
            forall key :: key in s.subdomains ==> key in s'.subdomains && s'.subdomains[key] == s.subdomains[key]
    decreases |rs|
  {
    if |rs| > 0 {
      AddGroupStable(s, nm, t, rs[..|rs| - 1]);
    }
  }

  /** pid_elemType2subdomainMap only grows: no key already present is
      reassigned, whatever the state the import starts from. */
  lemma {:induction false} SubdomainsStable(s: ElemState, nm: map<nat, nat>, table: map<string, ElemType>, gs: seq<Group<ElemRecord>>)
    requires GroupsConnectable(nm, table, gs)
    ensures var s' := AddGroups(s, nm, table, gs).state;
            forall key :: key in s.subdomains ==> key in s'.subdomains && s'.subdomains[key] == s.subdomains[key]
    decreases |gs|
  {
    if |gs| > 0 {
      var init := gs[..|gs| - 1];
      PrefixConnectable(nm, table, gs);
      SubdomainsStable(s, nm, table, init);
      var o := AddGroups(s, nm, table, init);
      var last := gs[|gs| - 1];
      if o.err.None? && last.name in table {
        AddGroupStable(o.state, nm, table[last.name], last.items);
      }
    }
  }

  /** Two elements share a subdomain exactly when their records share the
      (pid mod 2^16, element type) key; in particular a subdomain never mixes
      element types. */
  lemma Homogeneous(s: ElemState, nm: map<nat, nat>, fl: seq<(ElemType, ElemRecord)>, h1: nat, h2: nat)
    requires ElemsMatch(s, nm, fl) && Injective(s.subdomains) && h1 < |fl| && h2 < |fl|
    ensures s.elems[h1].subdomain == s.elems[h2].subdomain
            <==> KeyOf(fl[h1].0, fl[h1].1) == KeyOf(fl[h2].0, fl[h2].1)
    ensures s.elems[h1].subdomain == s.elems[h2].subdomain ==> s.elems[h1].kind.code == s.elems[h2].kind.code
  {
    assert Built(s.elems[h1], nm, fl[h1].0, fl[h1].1, s.subdomains);
    assert Built(s.elems[h2], nm, fl[h2].0, fl[h2].1, s.subdomains);
  }

  /** The element maps: following eid -> handle -> eid always returns the
      eid; following handle -> eid -> handle returns the handle when no two
      records share an eid. */
  lemma HandleRoundTrip(s: ElemState, fl: seq<(ElemType, ElemRecord)>)
    requires HandleMaps(s, fl)
    ensures forall eid :: eid in s.toHandle ==> s.toHandle[eid] in s.toEid && s.toEid[s.toHandle[eid]] == eid
    ensures (forall i, j :: 0 <= i < j < |fl| ==> fl[i].1.eid != fl[j].1.eid)
            ==> forall h :: h in s.toEid ==> s.toEid[h] in s.toHandle && s.toHandle[s.toEid[h]] == h
  {
  }

  /** The element maps seen through the mesh: every element's id is a key
      of the eid map and leads to an element carrying it; the handle map is
      keyed by exactly the handles and gives each element's id. */
  lemma ElemMapsAgree(s: ElemState, nm: map<nat, nat>, fl: seq<(ElemType, ElemRecord)>)
    ensures ElemsMatch(s, nm, fl) && HandleMaps(s, fl) ==>
              && (forall h :: 0 <= h < |s.elems| ==> s.elems[h].id in s.toHandle)
              && (forall eid :: eid in s.toHandle ==>
                    && s.toHandle[eid] < |s.elems| && s.elems[s.toHandle[eid]].id == eid
                    && s.toHandle[eid] in s.toEid && s.toEid[s.toHandle[eid]] == eid)
              && (forall h :: h in s.toEid <==> 0 <= h < |s.elems|)
              && (forall h :: h in s.toEid ==> s.toEid[h] == s.elems[h].id && s.toEid[h] in s.toHandle)
  {
    if ElemsMatch(s, nm, fl) && HandleMaps(s, fl) {
      forall h | 0 <= h < |s.elems| ensures s.elems[h].id == fl[h].1.eid {
        assert Built(s.elems[h], nm, fl[h].0, fl[h].1, s.subdomains);
      }
    }
  }

  /** Every element's subdomain is one of the numbers handed out. */
  lemma SubdomainsCovered(s: ElemState, nm: map<nat, nat>, fl: seq<(ElemType, ElemRecord)>)
    ensures ElemsMatch(s, nm, fl) ==> forall h :: 0 <= h < |s.elems| ==> s.elems[h].subdomain in s.subdomains.Values
  {
    if ElemsMatch(s, nm, fl) {
      forall h | 0 <= h < |s.elems| ensures s.elems[h].subdomain in s.subdomains.Values {
        assert Built(s.elems[h], nm, fl[h].0, fl[h].1, s.subdomains);
      }
    }
  }

  /** As written, read() keeps the maps of an earlier import and restarts z
      at 1. Shown here: a first import of one CBAR with pid 1, then a second
      import of CBARs with pid 2 and pid 1 on the maps left over. Both
      elements of the second import land in subdomain 1 though their keys
      differ. */
  lemma StaleSessionCollision()
    ensures var bar := ElemType(0, 2);
            var table := map["CBAR" := bar];
            var first := AddGroups(Fresh, map[], table, [Group("CBAR", [ElemRecord(100, 1, [])])]).state;
            var carried := ElemState([], first.toHandle, first.toEid, first.subdomains, 1);
            var second := AddGroups(carried, map[], table,
                                    [Group("CBAR", [ElemRecord(200, 2, []), ElemRecord(201, 1, [])])]).state;
            && |second.elems| == 2
            && second.elems[0].subdomain == second.elems[1].subdomain == 1
            && KeyOf(bar, ElemRecord(200, 2, [])) != KeyOf(bar, ElemRecord(201, 1, []))
            && !Injective(second.subdomains)
  {
    var bar := ElemType(0, 2);
    var table := map["CBAR" := bar];
    var r1 := ElemRecord(100, 1, []);
    var g1 := [Group("CBAR", [r1])];
    var s1 := AddElement(Fresh, map[], bar, r1);
    assert AddGroup(Fresh, map[], bar, [r1]) == s1 by { assert [r1][..0] == []; }
    assert AddGroups(Fresh, map[], table, g1) == Outcome(s1, None) by { assert g1[..0] == []; }
    assert s1.subdomains == map[SubKey(1, 0) := 1];
    var carried := ElemState([], s1.toHandle, s1.toEid, s1.subdomains, 1);
    var ra, rb := ElemRecord(200, 2, []), ElemRecord(201, 1, []);
    var r2 := [ra, rb];
    var g2 := [Group("CBAR", r2)];
    var a := AddElement(carried, map[], bar, ra);
    var b := AddElement(a, map[], bar, rb);
    assert a.subdomains == map[SubKey(1, 0) := 1, SubKey(2, 0) := 1];
    assert b.elems[0].subdomain == 1 && b.elems[1].subdomain == 1;
    assert AddGroup(carried, map[], bar, [ra]) == a by { assert [ra][..0] == []; }
    assert AddGroup(carried, map[], bar, r2) == b by { assert r2[..1] == [ra]; }
    assert AddGroups(carried, map[], table, g2) == Outcome(b, None) by { assert g2[..0] == []; }
    assert !Injective(b.subdomains) by {
      assert b.subdomains[SubKey(1, 0)] == b.subdomains[SubKey(2, 0)];
    }
  }

  /** read_elements from an empty session, as read() is meant to start: it
      fails exactly at the first unknown type name, and the state reached
      satisfies the session invariant for the records of the groups before
      that name (all groups on success). */
  lemma FreshImport(nm: map<nat, nat>, table: map<string, ElemType>, gs: seq<Group<ElemRecord>>)
    requires GroupsConnectable(nm, table, gs)
    ensures var o := AddGroups(Fresh, nm, table, gs);
            var g := FirstUnknown(table, gs);
            && o.err == (if g < |gs| then Some(UnsupportedElementType(gs[g].name)) else None)
            && Inv(o.state, nm, Typed(table, gs[..g]))
            && o.state.z == |o.state.subdomains| + 1
  {
    FreshInv(nm);
    AddGroupsResult(Fresh, nm, table, gs, []);
    AddGroupsError(Fresh, nm, table, gs);
    assert [] + Typed(table, gs[..FirstUnknown(table, gs)]) == Typed(table, gs[..FirstUnknown(table, gs)]);
  }

  /** With a fresh session the numbering is injective and z is one past it. */
  lemma FreshSessionInjective(nm: map<nat, nat>, table: map<string, ElemType>, gs: seq<Group<ElemRecord>>)
    requires GroupsConnectable(nm, table, gs)
    ensures Injective(AddGroups(Fresh, nm, table, gs).state.subdomains)
    ensures AddGroups(Fresh, nm, table, gs).state.z - 1 == |AddGroups(Fresh, nm, table, gs).state.subdomains|
  {
    FreshImport(nm, table, gs);
  }
}

=== FILE: mesh.dfy ===
/** The part of libMesh's MeshBase the importer writes to: points by node id,
    elements by handle (their position), subdomain and node slots of each
    element, and the nodal boundary tags of BoundaryInfo. */
module MeshSink {
  import opened Bdf

  /** An element as the importer leaves it: its id, kind, subdomain and node
      slots; a slot is a node id, or None while it is still null. */
  datatype Elem = Elem(id: nat, kind: ElemType, subdomain: int, slots: seq<Option<nat>>)

  /** What Elem::build(t) produces once add_elem has numbered it: every slot
      null and the default subdomain 0. */
  function Blank(t: ElemType, id: nat): Elem
  {
    Elem(id, t, 0, seq(t.nodeCount, _ => None))
  }

  class Mesh {
    var dim: nat
    var nodeCapacity: nat
    var elemCapacity: nat
    var points: map<nat, Point>
    var elems: seq<Elem>
    var boundary: set<(nat, nat)>
    var prepared: bool

    constructor ()
      ensures dim == 0 && nodeCapacity == 0 && elemCapacity == 0
      ensures points == map[] && elems == [] && boundary == {} && !prepared
    {
      dim, nodeCapacity, elemCapacity := 0, 0, 0;
      points, elems, boundary, prepared := map[], [], {}, false;
    }

    /** MeshBase::clear: drops nodes, elements and boundary data. */
    method Clear()
      modifies this`points, this`elems, this`boundary, this`prepared
      ensures points == map[] && elems == [] && boundary == {} && !prepared
    {
      points, elems, boundary, prepared := map[], [], {}, false;
    }

    method SetDimension(d: nat)
      modifies this`dim
      ensures dim == d
    {
      dim := d;
    }

    /** reserve_nodes / reserve_elem are capacity hints only. */
    method ReserveNodes(n: nat)
      modifies this`nodeCapacity
      ensures nodeCapacity == n
    {
      nodeCapacity := n;
    }

    method ReserveElems(n: nat)
      modifies this`elemCapacity
      ensures elemCapacity == n
    {
      elemCapacity := n;
    }

    /** add_point(p, id): a point under an id already present replaces its coordinates. */
    method AddPoint(p: Point, id: nat)
      modifies this`points
      ensures points == old(points)[id := p]
    {
      points := points[id := p];
    }

    /** add_elem(Elem::build(t)): the element is numbered with the next position. */
    method AddElem(t: ElemType) returns (h: nat)
      modifies this`elems
      ensures h == |old(elems)| && elems == old(elems) + [Blank(t, h)]
    {
      h := |elems|;
      elems := elems + [Blank(t, h)];
    }

    method SetElemId(h: nat, id: nat)
      requires h < |elems|
      modifies this`elems
      ensures elems == old(elems)[h := old(elems)[h].(id := id)]
    {
      elems := elems[h := elems[h].(id := id)];
    }

    method SetSubdomain(h: nat, sid: int)
      requires h < |elems|
      modifies this`elems
      ensures elems == old(elems)[h := old(elems)[h].(subdomain := sid)]
    {
      elems := elems[h := elems[h].(subdomain := sid)];
    }

    /** set_node(i): slot i must exist (libMesh asserts it). */
    method SetNode(h: nat, i: nat, n: nat)
      requires h < |elems| && i < |elems[h].slots|
      modifies this`elems
      ensures elems == old(elems)[h := old(elems)[h].(slots := old(elems)[h].slots[i := Some(n)])]
    {
      elems := elems[h := elems[h].(slots := elems[h].slots[i := Some(n)])];
    }

    /** boundary_info->add_node(node, tag). */
    method AddBoundaryNode(n: nat, tag: nat)
      modifies this`boundary
      ensures boundary == old(boundary) + {(n, tag)}
    {
      boundary := boundary + {(n, tag)};
    }

    /** prepare_for_use, reduced to marking the mesh finalized. */
    method PrepareForUse()
      modifies this`prepared
      ensures prepared
    {
      prepared := true;
    }
  }
}

=== FILE: nastran_io.dfy ===
/** The NastranIO reader: it fills a mesh from a parsed bulk-data model and
    keeps the node, element and subdomain registries of the import. */
module Nastran {
  import opened Bdf
  import opened MeshSink
  import opened NodeImport
  import opened ElementImport
  import opened BoundaryImport

  class NastranIO {
    /** The mesh being read into. */
    const mesh: Mesh
    /** nastranToLibMeshElem: element type name to libMesh element type. */
    const table: map<string, ElemType>

    var nastranToMeshNode: map<nat, nat>
    var meshToNastranNode: map<nat, nat>
    var nastranToMeshElem: map<nat, nat>
    var meshToNastranElem: map<nat, nat>
    var subdomainOf: map<SubKey, int>

    /** The element records processed so far, each with its kind, in handle order. */
    ghost var processed: seq<(ElemType, ElemRecord)>

    /** The node registries hold each mesh node under its own id, both ways. */
    ghost predicate NodesValid()
      reads this`nastranToMeshNode, this`meshToNastranNode, mesh`points
    {
      && (forall n :: n in nastranToMeshNode ==> nastranToMeshNode[n] == n)
      && meshToNastranNode == nastranToMeshNode
      && nastranToMeshNode.Keys == mesh.points.Keys
    }

    /** The element bookkeeping as a value, with counter z. */
    function Elements(z: int): ElemState
      reads this`nastranToMeshElem, this`meshToNastranElem, this`subdomainOf, mesh`elems
    {
      ElemState(mesh.elems, nastranToMeshElem, meshToNastranElem, subdomainOf, z)
    }

    /** The registries agree with the mesh and with the records processed. */
    ghost predicate Valid()
      reads this`nastranToMeshNode, this`meshToNastranNode, this`nastranToMeshElem,
            this`meshToNastranElem, this`subdomainOf, this`processed, mesh`points, mesh`elems
    {
      NodesValid() && Inv(Elements(|subdomainOf| + 1), nastranToMeshNode, processed)
    }

    constructor (m: Mesh, t: map<string, ElemType>)
      ensures mesh == m && table == t
      ensures nastranToMeshNode == map[] && meshToNastranNode == map[]
      ensures nastranToMeshElem == map[] && meshToNastranElem == map[] && subdomainOf == map[]
      ensures processed == []
    {
      mesh, table := m, t;
      nastranToMeshNode, meshToNastranNode := map[], map[];
      nastranToMeshElem, meshToNastranElem, subdomainOf := map[], map[], map[];
      processed := [];
    }

    /** getNastran2libMeshNodeMap: the registry as it stands; once the
        registries agree with the mesh, defined on exactly the mesh's nodes
        and undone by the reverse map. */
    function GetNastranToMeshNodeMap(): (m: map<nat, nat>)
      reads this, mesh
      ensures NodesValid() ==> m.Keys == mesh.points.Keys
      ensures NodesValid() ==> forall nid :: nid in m ==> m[nid] in meshToNastranNode && meshToNastranNode[m[nid]] == nid
    {
      nastranToMeshNode
    }

    /** getlibMesh2NastranNodeMap: the registry as it stands; once the
        registries agree with the mesh, defined on exactly the mesh's nodes
        and undone by the forward map. */
    function GetMeshToNastranNodeMap(): (m: map<nat, nat>)
      reads this, mesh
      ensures NodesValid() ==> m.Keys == mesh.points.Keys
      ensures NodesValid() ==> forall h :: h in m ==> m[h] in nastranToMeshNode && nastranToMeshNode[m[h]] == h
    {
      meshToNastranNode
    }

    /** getNastran2libMeshElemMap: the registry as it stands; in a valid
        reader every element's eid is a key, and each key leads to an
        element that carries it. */
    function GetNastranToMeshElemMap(): (m: map<nat, nat>)
      reads this, mesh
      ensures Valid() ==> forall h :: 0 <= h < |mesh.elems| ==> mesh.elems[h].id in m
      ensures Valid() ==> forall eid :: eid in m ==> m[eid] < |mesh.elems| && mesh.elems[m[eid]].id == eid
      ensures Valid() ==> forall eid :: eid in m ==> m[eid] in meshToNastranElem && meshToNastranElem[m[eid]] == eid
    {
      ElemMapsAgree(Elements(|subdomainOf| + 1), nastranToMeshNode, processed);
      nastranToMeshElem
    }

    /** getlibMesh2NastranElemMap: the registry as it stands; in a valid
        reader keyed by exactly the element handles, giving each element's id. */
    function GetMeshToNastranElemMap(): (m: map<nat, nat>)
      reads this, mesh
      ensures Valid() ==> forall h :: h in m <==> 0 <= h < |mesh.elems|
      ensures Valid() ==> forall h :: h in m ==> m[h] == mesh.elems[h].id && m[h] in nastranToMeshElem
    {
      ElemMapsAgree(Elements(|subdomainOf| + 1), nastranToMeshNode, processed);
      meshToNastranElem
    }

    /** getPIDElemtype2SubdomainIDMap: the numbering as it stands; in a
        valid reader an injective numbering 1 .. |m| that covers the
        subdomain of every element. */
    function GetPidElemTypeToSubdomainMap(): (m: map<SubKey, int>)
      reads this, mesh
      ensures Valid() ==> Injective(m)
      ensures Valid() ==> forall key :: key in m ==> 1 <= m[key] <= |m|
      ensures Valid() ==> forall h :: 0 <= h < |mesh.elems| ==> mesh.elems[h].subdomain in m.Values
    {
      SubdomainsCovered(Elements(|subdomainOf| + 1), nastranToMeshNode, processed);
      subdomainOf
    }

    /** getPID2subdomainIDsMap: the pids of the keys, each with the set of
        subdomain ids its keys are numbered with. */
    method PidToSubdomainIds() returns (r: map<int, set<int>>)
      ensures forall pid :: pid in r <==> exists key :: key in subdomainOf && key.pid == pid
      ensures forall pid, sid :: pid in r ==>
                (sid in r[pid] <==> exists key :: key in subdomainOf && key.pid == pid && subdomainOf[key] == sid)
    {
      r := map[];
      var todo := subdomainOf.Keys;
      while todo != {}
        invariant todo <= subdomainOf.Keys
        invariant forall pid :: pid in r <==> exists key :: key in subdomainOf && key !in todo && key.pid == pid
        invariant forall pid, sid :: pid in r ==>
                    (sid in r[pid] <==> exists key :: key in subdomainOf && key !in todo && key.pid == pid && subdomainOf[key] == sid)
        decreases |todo|
      {
        var key :| key in todo;
        var sids := if key.pid in r then r[key.pid] else {};
        r := r[key.pid := sids + {subdomainOf[key]}];
        todo := todo - {key};
      }
    }

    /** read_nodes: each record's point is added under its id and both node
        registries map the id to itself. */
    method ReadNodes(model: BdfModel)
      modifies this`nastranToMeshNode, this`meshToNastranNode, mesh`points, mesh`nodeCapacity
      ensures mesh.nodeCapacity == model.nNodes
      ensures mesh.points == Placed(old(mesh.points), model.nodes)
      ensures nastranToMeshNode == old(nastranToMeshNode) + Identity(NodeIds(model.nodes))
      ensures meshToNastranNode == old(meshToNastranNode) + Identity(NodeIds(model.nodes))
      ensures forall i :: 0 <= i < |model.nodes| ==>
                var nid := model.nodes[i].nid;
                && nid in nastranToMeshNode && nastranToMeshNode[nid] == nid && nid in mesh.points
                && nid in meshToNastranNode && meshToNastranNode[nid] == nid
      ensures old(NodesValid()) ==> NodesValid() && Inverse(nastranToMeshNode, meshToNastranNode)
    {
      mesh.ReserveNodes(model.nNodes);
      var nodes := model.nodes;
      var i := 0;
      while i < |nodes|
        invariant 0 <= i <= |nodes|
        invariant mesh.nodeCapacity == model.nNodes
        invariant mesh.points == Placed(old(mesh.points), nodes[..i])
        invariant nastranToMeshNode == old(nastranToMeshNode) + Identity(NodeIds(nodes[..i]))
        invariant meshToNastranNode == old(meshToNastranNode) + Identity(NodeIds(nodes[..i]))
      {
        var node := nodes[i];
        mesh.AddPoint(node.p, node.nid);
        nastranToMeshNode := nastranToMeshNode[node.nid := node.nid];
        meshToNastranNode := meshToNastranNode[node.nid := node.nid];
        assert nodes[..i + 1] == nodes[..i] + [node];
        assert nodes[..i + 1][..i] == nodes[..i];
        NodeIdsSnoc(nodes[..i], node);
        IdentityGrow(old(nastranToMeshNode), NodeIds(nodes[..i]), node.nid);
        IdentityGrow(old(meshToNastranNode), NodeIds(nodes[..i]), node.nid);
        i := i + 1;
      }
      assert nodes[..i] == nodes;
      forall j | 0 <= j < |nodes| ensures nodes[j].nid in NodeIds(nodes) { }
      if old(NodesValid()) {
        IdentityExtendInverse(old(nastranToMeshNode), NodeIds(nodes));
      }
    }
  
    /** One record, as the body of read_elements' inner loop handles it:
        the element is added with handle k, entered in both element maps
        under that handle, given the subdomain of its (pid, type) key (a new
        key takes z, and z moves on) and connected to its listed nodes. */
    method ReadRecord(t: ElemType, r: ElemRecord, k: nat, z: int) returns (z': int)
      requires k == |mesh.elems| && Connectable(nastranToMeshNode, t, r)
      modifies this`nastranToMeshElem, this`meshToNastranElem, this`subdomainOf, mesh`elems
      ensures Elements(z') == AddElement(old(Elements(z)), nastranToMeshNode, t, r)
    {
      ghost var nm := nastranToMeshNode;
      ghost var prev := Elements(z);
      var h := mesh.AddElem(t);
      mesh.SetElemId(k, k);
      nastranToMeshElem := nastranToMeshElem[r.eid := k];
      meshToNastranElem := meshToNastranElem[k := r.eid];
      mesh.SetElemId(k, r.eid);
      var key := KeyOf(t, r);
      z' := z;
      if key !in subdomainOf {
        subdomainOf := subdomainOf[key := z'];
        z' := z' + 1;
      }
      var sid := subdomainOf[key];
      mesh.SetSubdomain(k, sid);
      SlotsStart(nm, t, r.nodeIds, k);
      assert mesh.elems == prev.elems + [Elem(r.eid, t, sid, Slots(nm, t, r.nodeIds, 0))];
      var j := 0;
      while j < |r.nodeIds|
        invariant 0 <= j <= |r.nodeIds|
        invariant mesh.elems == prev.elems + [Elem(r.eid, t, sid, Slots(nm, t, r.nodeIds, j))]
        modifies mesh`elems
      {
        mesh.SetNode(k, j, nastranToMeshNode[r.nodeIds[j]]);
        SlotsStep(nm, t, r.nodeIds, j);
        ReplaceLast(prev.elems, Elem(r.eid, t, sid, Slots(nm, t, r.nodeIds, j)),
                    Elem(r.eid, t, sid, Slots(nm, t, r.nodeIds, j + 1)));
        j := j + 1;
      }
    }

    /** The records of one type group, in order: the inner loop of read_elements. */
    method ReadGroup(t: ElemType, rs: seq<ElemRecord>, k: nat, z: int) returns (k': nat, z': int)
      requires k == |mesh.elems| && AllConnectable(nastranToMeshNode, t, rs)
      modifies this`nastranToMeshElem, this`meshToNastranElem, this`subdomainOf, mesh`elems
      ensures k' == |mesh.elems|
      ensures Elements(z') == AddGroup(old(Elements(z)), nastranToMeshNode, t, rs)
    {
      ghost var start := Elements(z);
      k', z' := k, z;
      var i := 0;
      while i < |rs|
        invariant 0 <= i <= |rs|
        invariant k' == |mesh.elems|
        invariant AddGroup(start, nastranToMeshNode, t, rs[..i]) == Elements(z')
      {
        AddGroupAt(start, nastranToMeshNode, t, rs, i);
        z' := ReadRecord(t, rs[i], k', z');
        k' := k' + 1;
        i := i + 1;
      }
      assert rs[..i] == rs;
    }

    /** read_elements: the groups in name order, each record becoming the
        element with the next handle. The counter z restarts at 1 while the
        element registries keep what an earlier import left in them. An
        unknown type name stops the import before its group. */
    method ReadElements(model: BdfModel) returns (err: Option<ImportError>)
      requires mesh.elems == []
      requires GroupsConnectable(nastranToMeshNode, table, model.elements)
      modifies this`nastranToMeshElem, this`meshToNastranElem, this`subdomainOf, mesh`elems, mesh`elemCapacity
      ensures mesh.elemCapacity == model.nElems
      ensures var o := AddGroups(ElemState([], old(nastranToMeshElem), old(meshToNastranElem), old(subdomainOf), 1),
                                 nastranToMeshNode, table, model.elements);
              err == o.err && Elements(o.state.z) == o.state
    {
      mesh.ReserveElems(model.nElems);
      var gs := model.elements;
      ghost var nm := nastranToMeshNode;
      ghost var s0 := Elements(1);
      var k: nat := 0;
      var z := 1;
      var g := 0;
      PrefixesConnectable(nm, table, gs, 0);
      while g < |gs|
        invariant 0 <= g <= |gs|
        invariant mesh.elemCapacity == model.nElems
        invariant GroupsConnectable(nm, table, gs[..g])
        invariant AddGroups(s0, nm, table, gs[..g]) == Outcome(Elements(z), None)
        invariant k == |mesh.elems|
      {
        AddGroupsNext(s0, nm, table, gs, g, Elements(z));
        if gs[g].name !in table {
          err := Some(UnsupportedElementType(gs[g].name));
          return;
        }
        k, z := ReadGroup(table[gs[g].name], gs[g].items, k, z);
        g := g + 1;
      }
      assert gs[..g] == gs;
      err := None;
    }

    /** read_node_boundaries: the nodes of the SPC sets in name order, the
        set visited j-th tagging its nodes with boundary id j. */
    method ReadNodeBoundaries(model: BdfModel)
      requires AllResolved(nastranToMeshNode, model.spcs)
      modifies mesh`boundary
      ensures mesh.boundary == Tagged(old(mesh.boundary), nastranToMeshNode, model.spcs)
    {
      var spcs := model.spcs;
      var j := 1;
      var g := 0;
      while g < |spcs|
        invariant 0 <= g <= |spcs| && j == g + 1
        invariant mesh.boundary == Tagged(old(mesh.boundary), nastranToMeshNode, spcs[..g])
      {
        var ids := spcs[g].items;
        ghost var base := mesh.boundary;
        var i := 0;
        while i < |ids|
          invariant 0 <= i <= |ids|
          invariant mesh.boundary == TagNodes(base, nastranToMeshNode, ids[..i], j)
        {
          mesh.AddBoundaryNode(nastranToMeshNode[ids[i]], j);
          assert ids[..i + 1][..i] == ids[..i];
          i := i + 1;
        }
        assert ids[..i] == ids;
        assert spcs[..g + 1][..g] == spcs[..g];
        j := j + 1;
        g := g + 1;
      }
      assert spcs[..g] == spcs;
    }

    /** Empties every registry of the reader, so that an import does not
        inherit entries from an earlier one. */
    method ResetSession()
      modifies this`nastranToMeshNode, this`meshToNastranNode, this`nastranToMeshElem,
               this`meshToNastranElem, this`subdomainOf, this`processed
      ensures nastranToMeshNode == map[] && meshToNastranNode == map[]
      ensures nastranToMeshElem == map[] && meshToNastranElem == map[] && subdomainOf == map[]
      ensures processed == []
    {
      nastranToMeshNode, meshToNastranNode := map[], map[];
      nastranToMeshElem, meshToNastranElem, subdomainOf := map[], map[], map[];
      processed := [];
    }

    /** What reading the nodes of model into a cleared mesh leaves behind:
        the dimension and node capacity are the model's, every node record's
        point is stored under its id (a repeated id keeps its last record),
        and both node registries map each id to itself. */
    ghost predicate NodesImported(model: BdfModel)
      reads this`nastranToMeshNode, this`meshToNastranNode, mesh`dim, mesh`nodeCapacity, mesh`points
    {
      && mesh.dim == model.nDims && mesh.nodeCapacity == model.nNodes
      && mesh.points == Placed(map[], model.nodes)
      && nastranToMeshNode == Identity(NodeIds(model.nodes))
      && meshToNastranNode == nastranToMeshNode
    }

    /** What reading the elements of model in a fresh session leaves behind:
        the outcome is the one of AddGroups from the empty session (so err
        names the first unknown type name, if any), the elements and element
        registries are its state, and processed lists the records added. */
    ghost predicate ElementsImported(model: BdfModel, err: Option<ImportError>)
      reads this`nastranToMeshNode, this`nastranToMeshElem, this`meshToNastranElem, this`subdomainOf,
            this`processed, mesh`elems, mesh`elemCapacity
    {
      && mesh.elemCapacity == model.nElems
      && GroupsConnectable(nastranToMeshNode, table, model.elements)
      && var g := FirstUnknown(table, model.elements);
         && err == (if g < |model.elements| then Some(UnsupportedElementType(model.elements[g].name)) else None)
         && Elements(|subdomainOf| + 1) == AddGroups(Fresh, nastranToMeshNode, table, model.elements).state
         && processed == Typed(table, model.elements[..g])
    }

    /** The common start of both read overloads: clear the mesh, start a
        fresh session, set the dimension and read the nodes. */
    method StartImport(model: BdfModel)
      modifies this, mesh
      ensures NodesImported(model)
      ensures mesh.elems == [] && Elements(1) == Fresh && processed == []
      ensures mesh.boundary == {} && !mesh.prepared
    {
      mesh.Clear();
      ResetSession();
      mesh.SetDimension(model.nDims);
      ReadNodes(model);
      assert nastranToMeshNode == Identity(NodeIds(model.nodes));
    }

    /** read_elements in a fresh session, recording the records it adds. */
    method ReadElementsFresh(model: BdfModel) returns (err: Option<ImportError>)
      requires mesh.elems == [] && Elements(1) == Fresh
      requires GroupsConnectable(nastranToMeshNode, table, model.elements)
      modifies this`nastranToMeshElem, this`meshToNastranElem, this`subdomainOf, this`processed,
               mesh`elems, mesh`elemCapacity
      ensures ElementsImported(model, err)
    {
      ghost var nm := nastranToMeshNode;
      err := ReadElements(model);
      ghost var o := AddGroups(Fresh, nm, table, model.elements).state;
      assert Elements(o.z) == o;
      AddGroupsError(Fresh, nm, table, model.elements);
      FreshSessionInjective(nm, table, model.elements);
      processed := Typed(table, model.elements[..FirstUnknown(table, model.elements)]);
    }

    /** Both read overloads up to the elements: a fresh session, the
        dimension, the nodes, then the elements. */
    method ReadMesh(model: BdfModel) returns (err: Option<ImportError>)
      requires GroupsConnectable(Identity(NodeIds(model.nodes)), table, model.elements)
      modifies this, mesh
      ensures NodesImported(model) && ElementsImported(model, err) && Valid()
      ensures mesh.boundary == {} && !mesh.prepared
    {
      StartImport(model);
      err := ReadElementsFresh(model);
      ImportedValid(model, err);
    }

    /** What either read overload leaves behind satisfies Valid(): the
        getters may be used after an import, failed or not. */
    lemma ImportedValid(model: BdfModel, err: Option<ImportError>)
      requires NodesImported(model) && ElementsImported(model, err)
      ensures Valid()
    {
      FreshImport(nastranToMeshNode, table, model.elements);
    }

    /** An import that reports no error has found every type name. */
    lemma ImportedAllKnown(model: BdfModel, err: Option<ImportError>)
      requires ElementsImported(model, err) && err.None?
      ensures AllKnown(table, model.elements)
    {
      assert model.elements[..|model.elements|] == model.elements;
    }

    /** The tail of read(filename) after an import without error: node
        boundaries from the SPC sets, then prepare_for_use. What the import
        established about nodes, elements and registries is left intact. */
    method TagAndPrepare(model: BdfModel)
      requires NodesImported(model) && ElementsImported(model, None) && Valid()
      requires AllKnown(table, model.elements) ==> AllResolved(Identity(NodeIds(model.nodes)), model.spcs)
      modifies mesh`boundary, mesh`prepared
      ensures NodesImported(model) && ElementsImported(model, None) && Valid()
      ensures AllResolved(nastranToMeshNode, model.spcs)
      ensures mesh.boundary == Tagged(old(mesh.boundary), nastranToMeshNode, model.spcs) && mesh.prepared
    {
      ImportedAllKnown(model, None);
      ReadNodeBoundaries(model);
      mesh.PrepareForUse();
    }

    /** read(filename), with the parsed model in place of the file: the mesh
        is cleared and filled with the model's nodes and elements; on success
        the SPC sets become node boundaries, the i-th set in name order
        tagging its nodes with i, and the mesh is prepared, while an unknown
        element type name ends the import before either. */
    method ReadFile(model: BdfModel) returns (err: Option<ImportError>)
      requires SortedNames(model.elements) && SortedNames(model.spcs)
      requires GroupsConnectable(Identity(NodeIds(model.nodes)), table, model.elements)
      requires AllKnown(table, model.elements) ==> AllResolved(Identity(NodeIds(model.nodes)), model.spcs)
      modifies this, mesh
      ensures NodesImported(model) && ElementsImported(model, err) && Valid()
      ensures err.None? ==> AllResolved(nastranToMeshNode, model.spcs)
                            && mesh.boundary == Tagged({}, nastranToMeshNode, model.spcs) && mesh.prepared
      ensures err.Some? ==> mesh.boundary == {} && !mesh.prepared
    {
      err := ReadMesh(model);
      if err.Some? {
        return;
      }
      TagAndPrepare(model);
    }

    /** read(model): the mesh is cleared and filled with the model's nodes
        and elements only; boundaries and preparation are left to the caller. */
    method Read(model: BdfModel) returns (err: Option<ImportError>)
      requires SortedNames(model.elements) && SortedNames(model.spcs)
      requires GroupsConnectable(Identity(NodeIds(model.nodes)), table, model.elements)
      modifies this, mesh
      ensures NodesImported(model) && ElementsImported(model, err) && Valid()
      ensures mesh.boundary == {} && !mesh.prepared
    {
      err := ReadMesh(model);
    }
  }
}

=== FILE: node_import.dfy ===
/** What read_nodes leaves behind, as functions of the node records. */
module NodeImport {
  import opened Bdf

  /** The points after add_point over the records in order: a repeated id
      keeps the coordinates of its later record. */
  function Placed(pts: map<nat, Point>, nodes: seq<NodeRecord>): (r: map<nat, Point>)
    ensures r.Keys == pts.Keys + NodeIds(nodes)
    decreases |nodes|
  {
    if |nodes| == 0 then pts
    else
      var last := nodes[|nodes| - 1];
      NodeIdsSnoc(nodes[..|nodes| - 1], last);
      assert nodes == nodes[..|nodes| - 1] + [last];
      Placed(pts, nodes[..|nodes| - 1])[last.nid := last.p]
  }

  /** The map a node registry holds for the given ids: each id to itself,
      since a node is added under its external id and node_ptr(nid) has id nid. */
  function Identity(ids: set<nat>): map<nat, nat>
  {
    map n | n in ids :: n
  }

  /** Registering one more id as itself. */
  lemma IdentityGrow(m: map<nat, nat>, ids: set<nat>, n: nat)
    ensures (m + Identity(ids))[n := n] == m + Identity(ids + {n})
  {
  }

  /** The two node maps are inverses of each other. */
  predicate Inverse(fwd: map<nat, nat>, rev: map<nat, nat>)
  {
    && (forall n :: n in fwd ==> fwd[n] in rev && rev[fwd[n]] == n)
    && (forall h :: h in rev ==> rev[h] in fwd && fwd[rev[h]] == h)
  }

  /** Adding the same identity entries to identity maps over the same ids
      keeps them mutual inverses. */
  lemma IdentityExtendInverse(fwd: map<nat, nat>, ids: set<nat>)
    requires forall n :: n in fwd ==> fwd[n] == n
    ensures Inverse(fwd + Identity(ids), fwd + Identity(ids))
    ensures forall n :: n in ids ==> n in fwd + Identity(ids) && (fwd + Identity(ids))[n] == n
  {
  }

  /** The record that registers an id last decides its point. */
  lemma {:induction false} PlacedLastWins(pts: map<nat, Point>, nodes: seq<NodeRecord>, i: nat)
    requires i < |nodes|
    requires forall j :: i < j < |nodes| ==> nodes[j].nid != nodes[i].nid
    ensures nodes[i].nid in Placed(pts, nodes) && Placed(pts, nodes)[nodes[i].nid] == nodes[i].p
    decreases |nodes|
  {
    if i < |nodes| - 1 {
      var init := nodes[..|nodes| - 1];
      assert init[i] == nodes[i];
      PlacedLastWins(pts, init, i);
    }
  }

  /** A point under an id no record mentions is left as it was. */
  lemma {:induction false} PlacedKeeps(pts: map<nat, Point>, nodes: seq<NodeRecord>, id: nat)
    requires id in pts && id !in NodeIds(nodes)
    ensures id in Placed(pts, nodes) && Placed(pts, nodes)[id] == pts[id]
    decreases |nodes|
  {
    if |nodes| > 0 {
      var init := nodes[..|nodes| - 1];
      NodeIdsSnoc(init, nodes[|nodes| - 1]);
      assert nodes == init + [nodes[|nodes| - 1]];
      PlacedKeeps(pts, init, id);
    }
  }

  /** With distinct ids every record's point is stored under its own id. */
  lemma PlacedDistinct(pts: map<nat, Point>, nodes: seq<NodeRecord>)
    requires forall i, j :: 0 <= i < j < |nodes| ==> nodes[i].nid != nodes[j].nid
    ensures forall i :: 0 <= i < |nodes| ==> nodes[i].nid in Placed(pts, nodes) && Placed(pts, nodes)[nodes[i].nid] == nodes[i].p
  {
    forall i | 0 <= i < |nodes|
      ensures nodes[i].nid in Placed(pts, nodes) && Placed(pts, nodes)[nodes[i].nid] == nodes[i].p
    {
      PlacedLastWins(pts, nodes, i);
    }
  }
}
